=== FILE: README.md ===
# Eight-direction weighted grid — a Dafny model

This project models the grid side of an A* path-finding library (`eightDirPath.go`). Terrain kinds come with three constant tables: a display symbol per kind, a kind per input symbol, and a movement cost per kind. A sparse world stores tiles under integer coordinates. The search calls back into each tile for four things: its passable neighbours, the cost of stepping onto a neighbour, a Manhattan-distance estimate towards a goal, and coordinate equality.

Modules, leaves first:

- `Wrappers` (`wrappers.dfy`): `Option`. `None` plays the role of a nil tile pointer.
- `Terrain` (`terrain.dfy`): the closed datatype `Kind` and the three tables, kept as constant maps.
- `Tiles` (`tiles.dfy`): the `Tile` value (kind and coordinates). Also `BSamePoint`, `PathNeighborCost` and `PathEstimatedCost`.
- `World` (`world.dfy`): the class `EDWorld`. It holds the nested map x -> y -> tile in a field that `SetTile` updates in place, and it creates a column's inner map the first time that column is used. `Store` is the pure function that specifies this update. `WellKeyed` and `PlainOrBlocker` are the invariants it keeps.
- `Adjacency` (`adjacency.dfy`): the fixed probe list and `PathNeighbors`. The specification function `Neighbors` says what `PathNeighbors` returns, and the lemmas characterise that result: for every world, each neighbour is a stored non-Blocker tile at a listed offset; for correctly keyed worlds, the result as a multiset is fixed exactly (its order is the probing order of `Collect`).

Modelling decisions:

- A tile's back-reference to its world is dropped. `PathNeighbors` takes the world as an explicit argument.
- Costs are Dafny `real`, so 1.0, 2.0, 3.0 and 1.414 are exact. The estimate is an integer distance, converted to `real` as the Go code converts it to `float64`.
- A Go map read of a missing key yields the zero value. So `KindCost` is 0 for Blocker and Path, and the model reproduces that.
- The probe list in `PathNeighbors` names offset (-1, 1) twice and never names (-1, -1). The model keeps the list as written. The lemmas show the effect in a world of correctly keyed tiles, such as every world built by `NewEDWorld` and `SetTile`: a passable tile at (x-1, y+1) is returned twice, and the tile at (x-1, y-1) is never returned.
- The model follows the Go code on three points:
  - A kind without a cost entry (Blocker, Path) reads as 0, the zero value of a Go map read.
  - `PathNeighborCost` computes a cost for any pair of tiles. For tiles that are not one diagonal step apart it returns the destination's base cost, whether or not they are adjacent.
  - The only writer, `SetTile`, produces Plain and Blocker tiles under their own coordinates. That is an invariant of every world built by `NewEDWorld` and `SetTile` alone. `SetTile` itself accepts any world, including one whose map was filled with other kinds by direct writes.

## Model

| member | source | states |
|---|---|---|
| Terrain.KindRune | eightDirPath.go:20-27 | the output symbol of Plain, River, Mountain, Blocker and Path is `.`, `~`, `M`, `X` and the filled circle U+25CF |
| Terrain.RuneKind | eightDirPath.go:29-35 | exactly the four symbols `.`, `~`, `M`, `X` have an input kind, and no input symbol yields Path |
| Terrain.KindCost | eightDirPath.go:37-42 | Plain, River and Mountain cost 1, 2 and 3; Blocker and Path, which have no cost entry, read as 0; the cost is never negative and is positive exactly for the three traversable kinds |
| Terrain.RuneRoundTrip | eightDirPath.go:8-35 | reading back the output symbol of Plain, River, Mountain or Blocker gives that kind; Path's symbol reads back as no kind |
| Terrain.KindRoundTrip | eightDirPath.go:20-35 | the output symbol of the kind read from an input symbol is that same symbol |
| Terrain.KindRuneInjective | eightDirPath.go:20-27 | distinct kinds have distinct output symbols |
| Tiles.BSamePoint | eightDirPath.go:80-83 | two tiles are the same point exactly when they would be equal after giving them the same kind |
| Tiles.SamePointEquivalence | eightDirPath.go:80-83 | same-point is reflexive, symmetric and transitive, and does not depend on a tile's kind |
| Tiles.PathNeighborCost | eightDirPath.go:85-102 | the cost is the destination kind's base cost times 1.414 when the move is one step on both axes, else the base cost; it is non-negative and is zero exactly for a Blocker or Path destination |
| Tiles.NeighborCostIgnoresOrigin | eightDirPath.go:87-102 | the origin's kind does not affect the cost |
| Tiles.OrthogonalMountainCost | eightDirPath.go:38-42 | a Mountain one step east of (0,0) costs 3 |
| Tiles.DiagonalRiverCost | eightDirPath.go:87-102 | a River at (1,1) seen from (0,0) costs 2.828 |
| Tiles.Manhattan | eightDirPath.go:106-117 | the integer distance is non-negative, bounds each signed coordinate difference, and is zero exactly at the same point |
| Tiles.PathEstimatedCost | eightDirPath.go:104-117 | the estimate is the integer distance as a real; it is non-negative and zero exactly when the two tiles share coordinates |
| Tiles.EstimateIsManhattan | eightDirPath.go:106-117 | the estimate equals the absolute x difference plus the absolute y difference |
| Tiles.EstimateSymmetric | eightDirPath.go:106-117 | the estimate is the same in both directions and ignores kinds |
| Tiles.EstimateTriangle | eightDirPath.go:106-117 | the estimate satisfies the triangle inequality |
| Tiles.EstimateThreeFour | eightDirPath.go:106-117 | the estimate from (0,0) to (3,4) is 7 |
| Tiles.EstimateOverestimatesDiagonal | eightDirPath.go:87-117 | one diagonal step onto Plain costs 1.414 but is estimated at 2, so the heuristic can overestimate |
| World.At | eightDirPath.go:126-132 | a lookup yields a tile exactly when the column exists and holds an entry for y, and then it is that entry |
| World.Store | eightDirPath.go:145-148 | a write at (x, y) adds column x if it was missing, adds y to that column's keys, and leaves every other column as it was |
| World.LookupAfterStore | eightDirPath.go:145-148 | after a write at (x, y), the lookup there yields the written tile and every other lookup is unchanged, whether or not the column existed before |
| World.StorePreservesInvariants | eightDirPath.go:134-149 | writing a Plain or Blocker tile under its own coordinates keeps every stored tile under its own coordinates and of kind Plain or Blocker |
| World.EDWorld.NewEDWorld | eightDirPath.go:122-124 | a new world is empty: every lookup yields no tile |
| World.EDWorld.EDTile | eightDirPath.go:126-132 | the lookup yields a tile exactly when column x exists and holds an entry for y, and then it is that entry; otherwise no tile, as Go returns nil |
| World.EDWorld.SetTile | eightDirPath.go:134-149 | for any world, the storage becomes the old storage with a Blocker (if bBloc) or Plain tile carrying (x, y) written at (x, y); that lookup yields the new tile and all others are unchanged; a world that kept the invariants still keeps them |
| Adjacency.Offsets | eightDirPath.go:62-71 | the eight probed offsets in probing order, (-1, 1) listed twice and (-1, -1) absent (contents stated by OffsetsListed) |
| Adjacency.Probe | eightDirPath.go:72-74 | one probe yields at most one tile: the tile stored at t plus the offset, exactly when one is stored there and it is not a Blocker |
| Adjacency.Collect | eightDirPath.go:61-77 | probing a list of offsets yields at most one tile per offset |
| Adjacency.Neighbors | eightDirPath.go:60-78 | a tile has at most 8 neighbours |
| Adjacency.ProbeAll | eightDirPath.go:61-77 | the loop over the offsets returns exactly the tiles collected in probing order |
| Adjacency.PathNeighbors | eightDirPath.go:60-78 | the method returns exactly the neighbour list of the specification |
| Adjacency.OffsetsListed | eightDirPath.go:62-71 | the probe list holds (-1, 1) twice, (-1, -1) never, each of the other six neighbouring offsets once, and nothing else |
| Adjacency.CollectSound | eightDirPath.go:72-74 | every collected tile is not a Blocker and is the stored tile at one of the probed coordinates |
| Adjacency.CollectCount | eightDirPath.go:61-77 | in a world of correctly keyed tiles, a stored tile is collected as many times as its offset is listed, or never if it is a Blocker |
| Adjacency.NeighborsSound | eightDirPath.go:60-78 | no neighbour is a Blocker and every neighbour is present in the world at a listed offset |
| Adjacency.NeighborsAtListedOffsets | eightDirPath.go:62-74 | in a world of correctly keyed tiles, each neighbour is stored under its own coordinates, lies at a listed offset, and is never at (x-1, y-1) |
| Adjacency.NeighborMultiplicity | eightDirPath.go:60-78 | in a world of correctly keyed tiles, the multiplicity of each stored tile in the neighbour list is 0 for a Blocker and otherwise the number of times its offset is listed |
| Adjacency.NeighborsOmitMinusOneMinusOne | eightDirPath.go:62-71 | in a world of correctly keyed tiles, the tile at (x-1, y-1) is never a neighbour |
| Adjacency.NeighborsRepeatMinusOnePlusOne | eightDirPath.go:62-71 | in a world of correctly keyed tiles, a passable tile at (x-1, y+1) appears exactly twice among the neighbours |
| Adjacency.NeighborCostInSetTileWorld | eightDirPath.go:87-102 | in any world whose stored tiles are all Plain or Blocker (every world built by NewEDWorld and SetTile alone), every neighbour costs 1.414 to reach diagonally and 1 otherwise |

## Left out

- `EDWorld.Distance` (eightDirPath.go:151-168) is left out. It prints a trace line and hands two fresh Plain tiles to the A* function `Path`, and that file is not part of this model.
- `EDTile.Print` and `EDWorld.Print` are left out. They only write to the console, and Go's map iteration order is unspecified. The commented-out block in `EDWorld.Print` is dead code.
- The `Pather` interface and the runtime type assertions `to.(*EDTile)` are replaced by the concrete `Tile` datatype, so a failed assertion cannot arise.
- Tiles.PathNeighborCost: costs are exact reals. The model does not capture the float64 rounding of `cost * 1.414` or of the integer-to-float conversion in `PathEstimatedCost`.
- Tiles.Manhattan: Go's `int` is 64 bits wide. The model's integers are unbounded, so overflow of the coordinate differences for coordinates near the limits of `int` is not captured.
- Terrain.RuneKind: it reports a missing input symbol as `None`. A bare Go map read of such a symbol would give the zero kind, Plain. The callers that parse maps are not part of this model.
- Pointer identity of tiles is not modelled. `SetTile` allocates a new tile each time, while the model stores tile values. No code in the model compares tile pointers. The multiplicity lemmas compare tile values, and their `WellKeyed` precondition (every stored tile carries its own coordinates) stands in for Go's distinct tile pointers: one pointer stored at two coordinates would be counted at both, in Go and in the model alike.
- Adjacency.PathNeighbors: its loop lives in `ProbeAll`, which iterates over the offset list passed to it. `PathNeighbors` passes the fixed list. The behaviour is the same, and the split keeps the proof small.
- Adjacency.PathNeighbors: probe coordinates are unbounded integers. Go's 64-bit `t.X+offset[0]` wraps, so a tile at x = MaxInt64 probes x = MinInt64; the model probes x = MaxInt64 + 1 instead.
- Tiles.PathNeighborCost: the coordinate differences are unbounded integers. In Go they wrap at 64 bits, so MaxInt64 against MinInt64 wraps to a difference of 1 on that axis, so such a pair can count as a diagonal step; the model does not capture that.
- World.EDWorld.SetTile: a nil `EDWorld` is not modelled. In Go, `EDTile` on a nil world returns nil, but `SetTile` panics when it assigns into the nil map; the model's world object always holds a map.

=== FILE: adjacency.dfy ===
/**
 * Neighbour enumeration. The Go code probes a fixed list of eight offsets
 * around a tile and keeps every probed tile that exists and is not a
 * Blocker. The list names the offset (-1, 1) twice and never names (-1, -1);
 * the model keeps that list as it is.
 */
module Adjacency {
  import opened Wrappers
  import opened Terrain
  import opened Tiles
  import opened World

  /** The probed offsets, in probing order. */
  const Offsets: seq<(int, int)> := [(-1, 0), (1, 0), (0, -1), (0, 1), (1, 1), (-1, 1), (1, -1), (-1, 1)]

  /** How many times the offset (dx, dy) occurs in the probe list. */
  function ListedTimes(dx: int, dy: int): nat {
    multiset(Offsets)[(dx, dy)]
  }

  /** The tiles one probe contributes: the tile at t + o if there is one and it is not a Blocker. */
  function Probe(g: Columns, t: Tile, o: (int, int)): (r: seq<Tile>)
    ensures |r| <= 1
    ensures r != [] <==> At(g, t.x + o.0, t.y + o.1).Some? && At(g, t.x + o.0, t.y + o.1).value.kind != Blocker
    ensures r != [] ==> Some(r[0]) == At(g, t.x + o.0, t.y + o.1)
  {
    match At(g, t.x + o.0, t.y + o.1)
    case Some(n) => if n.kind != Blocker then [n] else []
    case None => []
  }

  /** The tiles collected by probing offs in order, appending as each probe succeeds. */
  function Collect(g: Columns, t: Tile, offs: seq<(int, int)>): (r: seq<Tile>)
    ensures |r| <= |offs|
    decreases |offs|
  {
    if offs == [] then [] else Collect(g, t, offs[..|offs| - 1]) + Probe(g, t, offs[|offs| - 1])
  }

  /** The neighbours of t in the world whose storage is g. */
  function Neighbors(g: Columns, t: Tile): (r: seq<Tile>)
    ensures |r| <= 8
  {
    Collect(g, t, Offsets)
  }

  /** Enumerates the neighbours of t in w: the tiles found by probing the fixed offset list. */
  method PathNeighbors(w: EDWorld, t: Tile) returns (neighbors: seq<Tile>)
    ensures neighbors == Neighbors(w.columns, t)
  {
    neighbors := ProbeAll(w, t, Offsets);
  }

  /**
   * Probes offsets in order, appending each tile that exists and is not a
   * Blocker to a list that starts empty.
   */
  method ProbeAll(w: EDWorld, t: Tile, offsets: seq<(int, int)>) returns (neighbors: seq<Tile>)
    ensures neighbors == Collect(w.columns, t, offsets)
  {
    neighbors := [];
    var i := 0;
    while i < |offsets|
      invariant 0 <= i <= |offsets|
      invariant neighbors == Collect(w.columns, t, offsets[..i])
    {
      var offset := offsets[i];
      var n := w.EDTile(t.x + offset.0, t.y + offset.1);
      CollectPrefix(w.columns, t, offsets, i);
      assert Probe(w.columns, t, offset) == if n.Some? && n.value.kind != Blocker then [n.value] else [];
      if n.Some? && n.value.kind != Blocker {
        neighbors := neighbors + [n.value];
      }
      i := i + 1;
    }
    assert offsets[..i] == offsets;
  }

  /** Collecting one more offset of a list appends that offset's probe. */
  lemma CollectPrefix(g: Columns, t: Tile, offs: seq<(int, int)>, i: nat)
    requires i < |offs|
    ensures Collect(g, t, offs[..i + 1]) == Collect(g, t, offs[..i]) + Probe(g, t, offs[i])
  {
    assert offs[..i + 1][..i] == offs[..i];
  }

  /** The probe list's multiplicities: (-1, 1) twice, (-1, -1) never, the other six neighbours once, nothing else. */
  lemma OffsetsListed(dx: int, dy: int)
    ensures ListedTimes(dx, dy) ==
              if dx == -1 && dy == 1 then 2
              else if dx == -1 && dy == -1 then 0
              else if -1 <= dx <= 1 && -1 <= dy <= 1 && (dx, dy) != (0, 0) then 1
              else 0
  {
  }

  /** Every collected tile is stored at one of the probed coordinates and is not a Blocker. */
  lemma {:induction false} CollectSound(g: Columns, t: Tile, offs: seq<(int, int)>)
    ensures forall i :: 0 <= i < |Collect(g, t, offs)| ==>
              Collect(g, t, offs)[i].kind != Blocker &&
              exists j :: 0 <= j < |offs| && At(g, t.x + offs[j].0, t.y + offs[j].1) == Some(Collect(g, t, offs)[i])
    decreases |offs|
  {
    if offs != [] {
      var init, o := offs[..|offs| - 1], offs[|offs| - 1];
      CollectSound(g, t, init);
      var r := Collect(g, t, offs);
      forall i | 0 <= i < |r|
        ensures r[i].kind != Blocker
        ensures exists j :: 0 <= j < |offs| && At(g, t.x + offs[j].0, t.y + offs[j].1) == Some(r[i])
      {
        if i < |Collect(g, t, init)| {
          var j :| 0 <= j < |init| && At(g, t.x + init[j].0, t.y + init[j].1) == Some(Collect(g, t, init)[i]);
          assert offs[j] == init[j];
        } else {
          assert offs[|offs| - 1] == o;
        }
      }
    }
  }

  /** How often a stored tile n at (a, b) is contributed by one probe. */
  lemma ProbeCount(g: Columns, t: Tile, o: (int, int), a: int, b: int, n: Tile)
    requires WellKeyed(g)
    requires At(g, a, b) == Some(n)
    ensures multiset(Probe(g, t, o))[n] == if n.kind != Blocker && o == (a - t.x, b - t.y) then 1 else 0
  {
    var p := At(g, t.x + o.0, t.y + o.1);
    if p.Some? && p.value == n {
      assert t.x + o.0 == a && t.y + o.1 == b;
    }
  }

  /** Collecting a non-empty list is collecting all but its last offset, then probing the last one. */
  lemma CollectLast(g: Columns, t: Tile, offs: seq<(int, int)>)
    requires offs != []
    ensures multiset(offs) == multiset(offs[..|offs| - 1]) + multiset{offs[|offs| - 1]}
    ensures multiset(Collect(g, t, offs)) == multiset(Collect(g, t, offs[..|offs| - 1])) + multiset(Probe(g, t, offs[|offs| - 1]))
  {
    assert offs == offs[..|offs| - 1] + [offs[|offs| - 1]];
  }

  /** How often a stored tile n at (a, b) is collected: once per listing of its offset, unless it is a Blocker. */
  lemma {:induction false} CollectCount(g: Columns, t: Tile, offs: seq<(int, int)>, a: int, b: int, n: Tile)
    requires WellKeyed(g)
    requires At(g, a, b) == Some(n)
    ensures multiset(Collect(g, t, offs))[n] == if n.kind == Blocker then 0 else multiset(offs)[(a - t.x, b - t.y)]
    decreases |offs|
  {
    if offs != [] {
      var init, o := offs[..|offs| - 1], offs[|offs| - 1];
      CollectCount(g, t, init, a, b, n);
      ProbeCount(g, t, o, a, b, n);
      CollectLast(g, t, offs);
    }
  }

  /** Every neighbour is a stored tile, found at one of the listed offsets, and never a Blocker. */
  lemma NeighborsSound(g: Columns, t: Tile)
    ensures forall i :: 0 <= i < |Neighbors(g, t)| ==>
              Neighbors(g, t)[i].kind != Blocker &&
              exists j :: 0 <= j < |Offsets| && At(g, t.x + Offsets[j].0, t.y + Offsets[j].1) == Some(Neighbors(g, t)[i])
  {
    CollectSound(g, t, Offsets);
  }

  /**
   * In a world whose tiles carry their own coordinates, every neighbour is
   * the tile stored at its coordinates, one listed offset away from t, and
   * is never the tile at (t.x - 1, t.y - 1).
   */
  lemma NeighborsAtListedOffsets(g: Columns, t: Tile)
    requires WellKeyed(g)
    ensures forall i :: 0 <= i < |Neighbors(g, t)| ==>
              At(g, Neighbors(g, t)[i].x, Neighbors(g, t)[i].y) == Some(Neighbors(g, t)[i]) &&
              (Neighbors(g, t)[i].x - t.x, Neighbors(g, t)[i].y - t.y) in Offsets &&
              !(Neighbors(g, t)[i].x == t.x - 1 && Neighbors(g, t)[i].y == t.y - 1)
  {
    var r := Neighbors(g, t);
    CollectSound(g, t, Offsets);
    forall i | 0 <= i < |r|
      ensures At(g, r[i].x, r[i].y) == Some(r[i])
      ensures (r[i].x - t.x, r[i].y - t.y) in Offsets
      ensures !(r[i].x == t.x - 1 && r[i].y == t.y - 1)
    {
      var j :| 0 <= j < |Offsets| && At(g, t.x + Offsets[j].0, t.y + Offsets[j].1) == Some(r[i]);
      assert (r[i].x - t.x, r[i].y - t.y) == Offsets[j];
    }
  }

  /**
   * The exact multiplicity of every stored tile among the neighbours: zero for
   * a Blocker, otherwise the number of times its offset from t is listed.
   */
  lemma NeighborMultiplicity(g: Columns, t: Tile, a: int, b: int, n: Tile)
    requires WellKeyed(g)
    requires At(g, a, b) == Some(n)
    ensures multiset(Neighbors(g, t))[n] == if n.kind == Blocker then 0 else ListedTimes(a - t.x, b - t.y)
  {
    CollectCount(g, t, Offsets, a, b, n);
  }

  /** The tile at (t.x - 1, t.y - 1) is never a neighbour, whatever its kind. */
  lemma NeighborsOmitMinusOneMinusOne(g: Columns, t: Tile, n: Tile)
    requires WellKeyed(g)
    requires At(g, t.x - 1, t.y - 1) == Some(n)
    ensures n !in Neighbors(g, t)
  {
    NeighborMultiplicity(g, t, t.x - 1, t.y - 1, n);
    OffsetsListed(-1, -1);
  }

  /** A passable tile at (t.x - 1, t.y + 1) is returned twice. */
  lemma NeighborsRepeatMinusOnePlusOne(g: Columns, t: Tile, n: Tile)
    requires WellKeyed(g)
    requires At(g, t.x - 1, t.y + 1) == Some(n) && n.kind != Blocker
    ensures multiset(Neighbors(g, t))[n] == 2
  {
    NeighborMultiplicity(g, t, t.x - 1, t.y + 1, n);
    OffsetsListed(-1, 1);
  }

  /**
   * In a world whose stored tiles are all Plain or Blocker, as in every world
   * built by SetTile alone, stepping onto any neighbour costs 1 orthogonally
   * and 1.414 diagonally.
   */
  lemma NeighborCostInSetTileWorld(g: Columns, t: Tile)
    requires PlainOrBlocker(g)
    ensures forall i :: 0 <= i < |Neighbors(g, t)| ==>
              PathNeighborCost(t, Neighbors(g, t)[i]) == if DiagonalStep(t, Neighbors(g, t)[i]) then 1.414 else 1.0
  {
    var r := Neighbors(g, t);
    NeighborsSound(g, t);
    forall i | 0 <= i < |r|
      ensures r[i].kind == Plain
    {
      var j :| 0 <= j < |Offsets| && At(g, t.x + Offsets[j].0, t.y + Offsets[j].1) == Some(r[i]);
    }
  }
}

=== FILE: terrain.dfy ===
/**
 * Terrain kinds of the eight-direction grid and the three constant tables
 * that describe them: the output symbol of each kind, the kind of each
 * input symbol, and the baseline movement cost of each kind.
 */
module Terrain {
  import opened Wrappers

  /** The closed set of kinds, declared in the order of the Go code's iota values 0..4. */
  datatype Kind = Plain | River | Mountain | Blocker | Path

  /** Output table: every kind has a display symbol; Path's is a filled circle. */
  const KindRunes: map<Kind, char> :=
    map[Plain := '.', River := '~', Mountain := 'M', Blocker := 'X', Path := '\U{25CF}']

  /** Input table: four symbols, none of which stands for Path. */
  const RuneKinds: map<char, Kind> :=
    map['.' := Plain, '~' := River, 'M' := Mountain, 'X' := Blocker]

  /** Cost table: only the three traversable kinds have an entry. */
  const KindCosts: map<Kind, real> :=
    map[Plain := 1.0, River := 2.0, Mountain := 3.0]

  /** The output symbol of a kind. */
  function KindRune(k: Kind): (c: char)
    ensures c == match k
                 case Plain => '.'
                 case River => '~'
                 case Mountain => 'M'
                 case Blocker => 'X'
                 case Path => '\U{25CF}'
  {
    assert k.Plain? || k.River? || k.Mountain? || k.Blocker? || k.Path?;
    KindRunes[k]
  }

  /** The kind an input symbol stands for, or None when the input table has no entry for it. */
  function RuneKind(c: char): (r: Option<Kind>)
    ensures r.Some? <==> c == '.' || c == '~' || c == 'M' || c == 'X'
    ensures r != Some(Path)
  {
    if c in RuneKinds then Some(RuneKinds[c]) else None
  }

  /**
   * The baseline cost of entering a tile of kind k. A kind without an entry in
   * the cost table reads as the zero value, exactly as a Go map read does.
   */
  function KindCost(k: Kind): (c: real)
    ensures c == match k
                 case Plain => 1.0
                 case River => 2.0
                 case Mountain => 3.0
                 case Blocker => 0.0
                 case Path => 0.0
    ensures c >= 0.0
    ensures c > 0.0 <==> k != Blocker && k != Path
  {
    if k in KindCosts then KindCosts[k] else 0.0
  }

  /** Every kind other than Path survives output followed by input; Path has no way back. */
  lemma RuneRoundTrip(k: Kind)
    ensures k != Path ==> RuneKind(KindRune(k)) == Some(k)
    ensures k == Path ==> RuneKind(KindRune(k)) == None
  {
  }

  /** Input followed by output gives back the symbol that was read. */
  lemma KindRoundTrip(c: char)
    ensures RuneKind(c).Some? ==> KindRune(RuneKind(c).value) == c
  {
  }

  /** Distinct kinds are displayed with distinct symbols. */
  lemma KindRuneInjective(k1: Kind, k2: Kind)
    ensures KindRune(k1) == KindRune(k2) ==> k1 == k2
  {
  }
}

=== FILE: tiles.dfy ===
/**
 * A tile of the grid and the three per-tile operations the path search calls
 * back into: coordinate equality, the cost of stepping onto a neighbour, and
 * the heuristic estimate towards a goal. The world the Go tile points
 * back to is not part of a tile here; operations that need it take it as an
 * argument (see module Adjacency).
 */
module Tiles {
  import opened Terrain

  /** A tile: its terrain kind and its integer coordinates. */
  datatype Tile = Tile(kind: Kind, x: int, y: int)

  /** The multiplier applied to the cost of a diagonal step (an approximation of the square root of 2). */
  const DiagonalFactor: real := 1.414

  /** True when `to` is one step away from `t` on both axes at once. */
  predicate DiagonalStep(t: Tile, to: Tile) {
    (to.x == t.x + 1 || to.x == t.x - 1) && (to.y == t.y + 1 || to.y == t.y - 1)
  }

  /** True when both tiles sit at the same coordinates, whatever their kinds. */
  predicate BSamePoint(t: Tile, to: Tile): (r: bool)
    ensures r <==> t.(kind := to.kind) == to
  {
    t.x == to.x && t.y == to.y
  }

  /**
   * The cost of moving from t onto to: the baseline cost of to's kind,
   * multiplied by the diagonal factor when the move is diagonal.
   */
  function PathNeighborCost(t: Tile, to: Tile): (c: real)
    ensures c == KindCost(to.kind) * (if DiagonalStep(t, to) then DiagonalFactor else 1.0)
    ensures c >= 0.0
    ensures c == 0.0 <==> to.kind == Blocker || to.kind == Path
  {
    var cost := KindCost(to.kind);
    var xdis := t.x - to.x;
    var xdis := if xdis < 0 then -xdis else xdis;
    var ydis := t.y - to.y;
    var ydis := if ydis < 0 then -ydis else ydis;
    if xdis == 1 && ydis == 1 then cost * DiagonalFactor else cost
  }

  /** The Manhattan distance between two tiles, before conversion to a cost. */
  function Manhattan(t: Tile, to: Tile): (d: int)
    ensures d >= 0
    ensures d >= to.x - t.x && d >= t.x - to.x && d >= to.y - t.y && d >= t.y - to.y
    ensures d == 0 <==> BSamePoint(t, to)
  {
    var absX := to.x - t.x;
    var absX := if absX < 0 then -absX else absX;
    var absY := to.y - t.y;
    var absY := if absY < 0 then -absY else absY;
    absX + absY
  }

  /** The heuristic estimate from t to to: their Manhattan distance as a cost. */
  function PathEstimatedCost(t: Tile, to: Tile): (e: real)
    ensures e >= 0.0
    ensures e == 0.0 <==> BSamePoint(t, to)
    ensures e == Manhattan(t, to) as real
  {
    Manhattan(t, to) as real
  }

  /** Same-point is an equivalence relation that ignores kinds. */
  lemma SamePointEquivalence(a: Tile, b: Tile, c: Tile, k: Kind)
    ensures BSamePoint(a, a)
    ensures BSamePoint(a, b) <==> BSamePoint(b, a)
    ensures BSamePoint(a, b) && BSamePoint(b, c) ==> BSamePoint(a, c)
    ensures BSamePoint(a, b) <==> BSamePoint(a.(kind := k), b)
  {
  }

  /** The estimate is the sum of the absolute coordinate differences. */
  lemma EstimateIsManhattan(t: Tile, to: Tile, dx: int, dy: int)
    requires dx == to.x - t.x && dy == to.y - t.y
    ensures PathEstimatedCost(t, to) == ((if dx < 0 then -dx else dx) + (if dy < 0 then -dy else dy)) as real
  {
  }

  /** The estimate does not depend on the direction of travel or on kinds. */
  lemma EstimateSymmetric(t: Tile, to: Tile, k: Kind)
    ensures PathEstimatedCost(t, to) == PathEstimatedCost(to, t)
    ensures PathEstimatedCost(t, to) == PathEstimatedCost(t.(kind := k), to)
  {
  }

  /** The estimate obeys the triangle inequality, so it never grows by more than one step's displacement. */
  lemma EstimateTriangle(a: Tile, b: Tile, c: Tile)
    ensures PathEstimatedCost(a, c) <= PathEstimatedCost(a, b) + PathEstimatedCost(b, c)
  {
  }

  /** The cost of a move depends only on the destination's kind and the shape of the move. */
  lemma NeighborCostIgnoresOrigin(t: Tile, to: Tile, k: Kind)
    ensures PathNeighborCost(t.(kind := k), to) == PathNeighborCost(t, to)
  {
  }

  /** A mountain one step to the east of a plain tile costs 3. */
  lemma OrthogonalMountainCost()
    ensures PathNeighborCost(Tile(Plain, 0, 0), Tile(Mountain, 1, 0)) == 3.0
  {
  }

  /** A river one diagonal step away costs 2 times 1.414. */
  lemma DiagonalRiverCost()
    ensures PathNeighborCost(Tile(Plain, 0, 0), Tile(River, 1, 1)) == 2.828
  {
  }

  /** The estimate from (0,0) to (3,4) is 7. */
  lemma EstimateThreeFour()
    ensures PathEstimatedCost(Tile(Plain, 0, 0), Tile(Plain, 3, 4)) == 7.0
  {
  }

  /**
   * The estimate can exceed the true cost of a route: one diagonal step onto
   * plain terrain costs 1.414 while the estimate for it is 2.
   */
  lemma EstimateOverestimatesDiagonal()
    ensures PathNeighborCost(Tile(Plain, 0, 0), Tile(Plain, 1, 1)) < PathEstimatedCost(Tile(Plain, 0, 0), Tile(Plain, 1, 1))
  {
  }
}

=== FILE: world.dfy ===
/**
 * The world: a sparse two-level map from x to y to tile. A column's inner
 * map exists only once some tile has been set in that column. "No tile" at a
 * coordinate is the absence of an entry, which is different from a stored
 * Blocker tile.
 */
module World {
  import opened Wrappers
  import opened Terrain
  import opened Tiles

  /** The world's storage: x, then y, to the tile stored there. */
  type Columns = map<int, map<int, Tile>>

  /** Lookup: None when the column does not exist or has no entry for y. */
  function At(g: Columns, x: int, y: int): (r: Option<Tile>)
    ensures r.Some? ==> x in g && y in g[x] && r.value == g[x][y]
    ensures r.None? ==> x !in g || y !in g[x]
  {
    if x !in g then None
    else if y in g[x] then Some(g[x][y])
    else None
  }

  /** The storage after writing tile t at (x, y), creating the column first when it is missing. */
  function Store(g: Columns, x: int, y: int, t: Tile): (r: Columns)
    ensures r.Keys == g.Keys + {x}
    ensures x in r && r[x].Keys == (if x in g then g[x].Keys else {}) + {y}
    ensures forall a :: a in g && a != x ==> a in r && r[a] == g[a]
  {
    var column := if x in g then g[x] else map[];
    g[x := column[y := t]]
  }

  /** Every stored tile carries the coordinates it is stored under. */
  ghost predicate WellKeyed(g: Columns) {
    forall x, y :: At(g, x, y).Some? ==> At(g, x, y).value.x == x && At(g, x, y).value.y == y
  }

  /** Every stored tile is Plain or Blocker, the only kinds the world's one writer produces. */
  ghost predicate PlainOrBlocker(g: Columns) {
    forall x, y :: At(g, x, y).Some? ==> At(g, x, y).value.kind in {Plain, Blocker}
  }

  /** Writing a tile makes it the result of a lookup at that coordinate and changes no other lookup. */
  lemma LookupAfterStore(g: Columns, x: int, y: int, t: Tile, a: int, b: int)
    ensures At(Store(g, x, y, t), a, b) == if a == x && b == y then Some(t) else At(g, a, b)
  {
  }

  /** Writing a tile that carries its own coordinates and a Plain or Blocker kind keeps both world invariants. */
  lemma StorePreservesInvariants(g: Columns, x: int, y: int, t: Tile)
    requires WellKeyed(g) && PlainOrBlocker(g)
    requires t.x == x && t.y == y && t.kind in {Plain, Blocker}
    ensures WellKeyed(Store(g, x, y, t)) && PlainOrBlocker(Store(g, x, y, t))
  {
    forall a, b | At(Store(g, x, y, t), a, b).Some?
      ensures At(Store(g, x, y, t), a, b).value.x == a && At(Store(g, x, y, t), a, b).value.y == b
      ensures At(Store(g, x, y, t), a, b).value.kind in {Plain, Blocker}
    {
      LookupAfterStore(g, x, y, t, a, b);
    }
  }

  /** A world of tiles, updated in place by SetTile. */
  class EDWorld {
    var columns: Columns

    /** What SetTile guarantees about everything stored. */
    ghost predicate Valid()
      reads this
    {
      WellKeyed(columns) && PlainOrBlocker(columns)
    }

    /** A new, empty world. */
    constructor NewEDWorld()
      ensures Valid()
      ensures forall x, y :: EDTile(x, y) == None
    {
      columns := map[];
    }

    /** The tile at (x, y), or None when nothing was ever set there. */
    function EDTile(x: int, y: int): (r: Option<Tile>)
      reads this
      ensures r.Some? ==> x in columns && y in columns[x] && r.value == columns[x][y]
      ensures r.None? ==> x !in columns || y !in columns[x]
    {
      At(columns, x, y)
    }

    /**
     * Creates or overwrites the tile at (x, y): a Blocker when bBloc holds,
     * a Plain tile otherwise. The column's inner map is created on first use.
     */
    method SetTile(bBloc: bool, x: int, y: int)
      modifies this
      ensures old(Valid()) ==> Valid()
      ensures columns == Store(old(columns), x, y, Tile(if bBloc then Blocker else Plain, x, y))
      ensures EDTile(x, y) == Some(Tile(if bBloc then Blocker else Plain, x, y))
      ensures forall a, b :: (a != x || b != y) ==> EDTile(a, b) == old(EDTile(a, b))
    {
      var k := Plain;
      if bBloc {
        k := Blocker;
      }
      var t := Tile(k, x, y);
      ghost var before := columns;
      if Valid() {
        StorePreservesInvariants(before, x, y, t);
      }
      if x !in columns {
        columns := columns[x := map[]];
      }
      columns := columns[x := columns[x][y := t]];
      assert columns == Store(before, x, y, t);
      forall a, b ensures At(columns, a, b) == if a == x && b == y then Some(t) else At(before, a, b) {
        LookupAfterStore(before, x, y, t, a, b);
      }
    }
  }
}

=== FILE: wrappers.dfy ===
/** Optional values: the model's stand-in for a Go nil pointer. */
module Wrappers {
  datatype Option<+T> = None | Some(value: T)
}
